=== FILE: README.md ===
# Session-isolated stores, modelled in Dafny

This project models the core of `svelte-kit-isolated-stores`. The library lets a
SvelteKit application declare a store once at module scope, while every
session (one request or page load) gets its own instance of that store.

The model is a small state machine. Its state (`Registry.State`) holds three things:

- the registry (`sessionMap`), which maps a session identity to a record. A record
  holds the stores built for that session, keyed by factory, and the `fetch`
  captured when the record was created;
- the `loadSession` slot that `useLoad` publishes while its callbacks run;
- a fresh-identity counter. Each store construction takes the next identity, so
  "a new instance" is an identity no record holds yet.

Operations are pure functions that take a state and return a result plus the new
state. Exceptions become `Result` errors (`Base.Error`).

Modules follow the source files:

| module | source file |
|---|---|
| `Base` | JavaScript values and `typeof`, session values, load inputs, error kinds |
| `Registry` | `src/useLoad.ts`: the registry write, `loadSession`, `Object.assign` of callback results |
| `Resolution` | `src/useSession.ts`, plus the resolver interface the stores use |
| `DefineStore` | `src/defineStore.ts`: get-or-create, the proxy handler, `isIsolatedStore`, the store input's `fetch` |
| `LoadIntegration` | `src/loadWithStores.ts`: the load function and its argument-shape dispatch |
| `OverloadError` | `src/OverloadError.ts` |
| `DefineStoreHelpers` | `defineDerived` from `src/defineStoreHelpers.ts` |

`defineStore.ts` and `loadWithStores.ts` call `useSession(input)` and take a
record from it. The `useSession.ts` in this revision takes no argument and
returns `{ session, sessionData }`. So `getStore` and the load function are
modelled over an abstract `Resolution.Resolver`, which maps an optional load
input and a state to a session identity and a new state. There are two concrete
resolvers:

- `Resolution.ReadOnly` is `useSession.ts` exactly as written. It ignores the
  input and changes nothing.
- `Resolution.Registering` is input-aware. It registers a session named by the
  input with `useLoad`'s insert-if-absent write, and otherwise defers to
  `useSession`. It is one reading of the comment "Populate sessionMap"
  (`src/loadWithStores.ts:30`): the smallest resolver that registers the input's
  session with the write the core already has. It does not create a record for
  the ambient session, and it does not merge a later input's `fetch` into an
  existing record. Some tests expect both; see "## Left out".

With the read-only resolver, the load function registers nothing. It fails unless
`useLoad` registered the current session earlier (`LoadIntegration.LoadNeedsPriorUseLoad`).

Three behaviours of the code that are easy to miss are followed exactly:

- A non-object session makes `WeakMap.set` throw before `useLoad`'s `try`, so
  `loadSession` is left untouched on that path.
- `typeof null === 'object'` sends `null` plus a handler to the stores form, which
  passes `undefined` as the stores.
- `isIsolatedStore` is a strict `=== true` test of the marker property.

## Model

| member | source | states |
|---|---|---|
| `Registry.Register` | src/useLoad.ts:24-26 | A record is inserted only when the session has none, with empty stores and the input's fetch. No existing record of any session is replaced. A non-object session is rejected, because `WeakMap.set` throws. |
| `Registry.Assign` | src/useLoad.ts:31 | `Object.assign({}, ...results)` has exactly the keys of all results. Each key's value comes from the last result that has the key. |
| `Registry.UseLoad` | src/useLoad.ts:20-35 | A non-object session fails with the state untouched, `loadSession` included. Otherwise the callbacks run after the session is registered and published in `loadSession`. A success is the `Object.assign` merge (`Registry.Merges`) of their results. A callback's error is the call's error. The state afterwards is the state the callbacks left, so records and store instances they created stay, with only `loadSession` reset to null, whether the callbacks returned or threw. With no callbacks the result is `{}`. |
| `Registry.CallAll` | src/useLoad.ts:31 | `fns.map((fn) => fn())`: a success has one result per callback. The first callback runs on the given state, and its result heads the list. If it throws, its error and state end the run. With no callbacks the result is `[]`. |
| `Registry.CallAllFollowsEntered` | src/useLoad.ts:31 | The callbacks run left to right, each on the state its predecessor left (`Registry.Entered`). The run succeeds iff every callback returned, and result `i` is callback `i`'s result. On success the final state is the one the last callback left. Otherwise the last callback entered is the first that threw, and its error and state end the run. |
| `Registry.CallbacksRunInsideSession` | src/useLoad.ts:24-31 | Every callback runs with `loadSession = input.session` and with that session's record in the registry. |
| `Registry.UseLoadRegisters` | src/useLoad.ts:24-34 | After `useLoad` the session has a record. Its fetch is the earlier record's fetch if one existed, and the input's fetch otherwise. No record, fetch or store instance of any session is lost. |
| `Registry.FirstFetchWins` | src/useLoad.ts:24-26 | Two `useLoad` calls for one session with fetches A and then B leave A in the record. |
| `Resolution.Message` | src/useSession.ts:14 | The missing-record error reads "Call useLoad before calls to useSession". An overload mismatch carries its own message. |
| `Resolution.UseSession` | src/useSession.ts:8-21 | The session is `loadSession` when that is not null or undefined, and the ambient session otherwise. The call succeeds iff that session is an object with a record. It then returns the session and exactly its stored record. Otherwise it fails with the missing-record error, whose text is "Call useLoad before calls to useSession". |
| `Resolution.UseSessionInsideUseLoad` | src/useSession.ts:9-19 | Inside `useLoad`'s callbacks, `useSession` returns `input.session` and its record, whatever the ambient session is. |
| `Resolution.ReadOnly` | src/useSession.ts:8-20 | Used as a resolver, `useSession` leaves the state unchanged and ignores the input. It succeeds exactly when `useSession` does, with the same session. |
| `Resolution.Registering` | src/loadWithStores.ts:30-31 | An object session named by the input is registered (insert-if-absent) and returned. Without one, resolution is `useSession`'s. |
| `Resolution.RegisteringRejectsPrimitive` | src/useLoad.ts:24-25 | A load input whose session is not an object is rejected with the `WeakMap` key error, and the state is unchanged. |
| `DefineStore.StoreInputFetch` | src/defineStore.ts:90-101 | The store input's `fetch` fails iff the record has no fetch. Otherwise it is exactly the record's fetch. |
| `DefineStore.GetOrCreate` | src/defineStore.ts:24-29 | After the call, the record maps `fn` to the returned instance. An existing instance is returned and nothing changes. A new instance is fresh and bumps the counter once. Only key `fn` of this session's map can be added: other keys and other sessions' records stay as they were. Construction fails, and nothing is stored, exactly when it needs a fetch the session never received. |
| `DefineStore.GetStore` | src/defineStore.ts:19-30 | A failed resolution fails with the same error, and no store is created. A session that resolves and has a record gets exactly get-or-create of `fn` in that record: it succeeds unless construction needs a missing fetch, and only key `fn` of that record can be added. A resolved session without a record fails. On success, the instance is the one the resolved session's record holds for `fn`. The registry discipline and store-identity uniqueness are kept. |
| `DefineStore.Dispatch` | src/defineStore.ts:38-87 | A call resolves with the supplied input and returns the instance itself; it is never forwarded. Reading the marker answers `true` without resolving. Every other operation resolves again with no input and is forwarded to the resolved instance. Errors reach the caller unchanged. |
| `DefineStore.IsIsolatedStore` | src/defineStore.ts:11-14 | True iff the value is an isolated store, or a function whose marker property is strictly `true`. |
| `DefineStore.IsolatedStoresRecognised` | src/__test__/isIsolatedStore.spec.ts:6-17 | Every `defineStore` result passes, and its marker read needs no session. `{}`, plain functions, numbers and strings fail. |
| `DefineStore.UseSessionStable` | src/useSession.ts:9-11 | A resolved session stays resolved, to the same session, in later states that keep `loadSession` and the registry discipline. |
| `DefineStore.GetStoreMemoised` | src/defineStore.ts:25-29 | Through `useSession`, a second use in the same session returns the same instance and changes nothing, even after other activity. The counter grows by at most one, so `fn` runs at most once per session. |
| `DefineStore.CallMemoised` | src/defineStore.ts:25-29 | Calling a store twice with the same input returns the same instance, and the second call changes nothing. |
| `DefineStore.DistinctSessionsDistinctInstances` | src/defineStore.ts:21-28 | When two uses resolve to different sessions, they get different instances of the same factory. |
| `DefineStore.OneInstancePerSession` | src/__test__/defineStore._common_.ts:20-33 | With the input-aware resolver `Resolution.Registering`, load inputs naming sessions A and B both succeed and give two distinct instances. |
| `DefineStore.ExplicitInputIgnoredAsWritten` | src/useSession.ts:8-15 | With `useSession` as written, a load input naming a session is ignored. With no session current and none registered, the call fails with the missing-session error and changes nothing. |
| `DefineStore.StoreCreatedDuringLoadPersists` | src/useLoad.ts:28-34 | Starting from module load, where the registry invariant holds, a store used inside `useLoad`'s callbacks is still in the session's record after `useLoad` returns. A later use of it in that session returns that instance and creates nothing. |
| `DefineStore.AccessWithoutSessionFails` | src/__test__/defineStore._common_.ts:12-18 | With no session on record, property access fails with the missing-session error and leaves the state unchanged. |
| `DefineStore.ForwardingFollowsSession` | src/defineStore.ts:52-86 | Each forwarded operation resolves afresh. If the ambient session changes between two operations, they reach two different instances. |
| `DefineStore.ExplicitSessionNotRemembered` | src/__test__/defineStore.server.spec.ts:13-22 | Calling a store with an explicit session does not make that session current. A later property access with no current session still fails. |
| `OverloadError.OverloadMessage` | src/OverloadError.ts:1-8 | The message always starts with "No overload matched the provided arguments.". It is exactly that text for the default or empty message, and that text + " " + the message otherwise. The space is added iff the message is non-empty. |
| `OverloadError.MessageRoundTrip` | src/OverloadError.ts:3-6 | The supplied message can be read back from the error message. |
| `OverloadError.MessageInjective` | src/OverloadError.ts:3-6 | Different supplied messages give different error messages. |
| `LoadIntegration.Call` | src/loadWithStores.ts:38-47 | Calling an isolated store returns its instance for the input. A plain function runs as application code. Any other value is not callable. |
| `LoadIntegration.ResolveEntries` | src/loadWithStores.ts:46-48 | The resolved stores keep the keys of the named stores, in order, with one result per key. |
| `LoadIntegration.FormOf` | src/loadWithStores.ts:55-64 | The dispatch is total. It picks the empty form iff the first argument is undefined, the load form iff it is a function, and the stores form iff it is null or an object and the second argument is a function. Everything else is a mismatch. |
| `LoadIntegration.WithStoresForm` | src/loadWithStores.ts:42-53 | A `null` stores argument calls the handler with `undefined` for the stores. Otherwise the form succeeds only if every named store resolved first. |
| `LoadIntegration.Overloads` | src/loadWithStores.ts:33-64 | With no first argument the result is `{}`. A function first argument gives `fn(input)`. A mismatch fails with "No overload matched the provided arguments.". |
| `LoadIntegration.LoadFunction` | src/loadWithStores.ts:29-31 | The input's session is resolved before any dispatch. A failed resolution is the load's failure, and the dispatch runs on the state that resolution left. No load succeeds without a resolved session. With a sound resolver, the empty form and a mismatch lose no record, fetch or instance. |
| `LoadIntegration.SecondArgumentIgnored` | src/loadWithStores.ts:55-60 | With an undefined or function first argument, the second argument does not matter. |
| `LoadIntegration.NullStoresPassUndefined` | src/loadWithStores.ts:44-52 | `null` plus a handler calls the handler with `undefined` stores. |
| `LoadIntegration.LoadRegistersSession` | src/loadWithStores.ts:30-31 | With the input-aware resolver, the input's session is registered (and nothing lost) before the dispatch runs. |
| `LoadIntegration.LoadNeedsPriorUseLoad` | src/useSession.ts:11-15 | With `useSession` as written, the load function fails with the missing-session error, for every argument shape, unless the current session was registered earlier. |
| `LoadIntegration.ResolveIsolatedFrame` | src/loadWithStores.ts:46-47 | Resolving isolated stores keeps the registry discipline and `loadSession`. |
| `LoadIntegration.ResolveIsolatedStep` | src/loadWithStores.ts:47 | The first named isolated store is called first, and its instance heads the result. |
| `LoadIntegration.StoresMatchManualResolution` | src/loadWithStores.ts:42-52 | Each named isolated store is bound to the instance that resolving it by hand afterwards returns. |
| `LoadIntegration.StoresFormHandsInstances` | src/loadWithStores.ts:61-62 | For an object of isolated stores plus a handler, once the stores resolve, the handler receives an object with the same keys in the same order. Each key is bound to its store's instance in the current session. |
| `DefineStoreHelpers.SplitEntries` | src/defineStoreHelpers.ts:63-69 | The names list and the values list have the length of the entry list. `(names[i], values[i])` is `entries[i]`. |
| `DefineStoreHelpers.PrefixedObject` | src/defineStoreHelpers.ts:71-73 | The rebuilt object maps `"$" + names[i]` to `values[i]` for every `i`, in order. |
| `DefineStoreHelpers.PrefixInjective` | src/defineStoreHelpers.ts:72 | Distinct names give distinct `$` keys. |
| `DefineStoreHelpers.PrefixedKeysDistinct` | src/defineStoreHelpers.ts:63-73 | Distinct store names give an object with distinct keys, so no value is dropped. |
| `DefineStoreHelpers.CallbackAsWritten` | src/defineStoreHelpers.ts:77-82 | As written, the unary wrapper is chosen iff the combiner declares exactly one parameter. |
| `DefineStoreHelpers.ZeroArityCombinerLosesAutoMode` | src/defineStoreHelpers.ts:77-82 | A combiner with no parameters is in auto mode in the array form. As written, it is not in auto mode in the named form. |
| `DefineStoreHelpers.CallbackFor` | src/defineStoreHelpers.ts:77-82 | Corrected choice: the unary wrapper iff the combiner declares fewer than two parameters. It agrees with the code for every non-zero arity. |
| `DefineStoreHelpers.InitialValue` | src/defineStoreHelpers.ts:55 | The initial value defaults to `undefined`. |
| `DefineStoreHelpers.DefineDerivedAsWritten` | src/defineStoreHelpers.ts:52-85 | As written, an array of stores and the combiner reach `derived` unchanged. Anything else, a single store included, reaches it as its own entries' values plus the wrapper that `fn.length == 1` picks. |
| `DefineStoreHelpers.SingleStoreSplitIntoItsMembers` | src/defineStoreHelpers.ts:57-69 | As written, a single writable store reaches `derived` as its `set`, `update` and `subscribe` functions, not as itself. The combiner's object is keyed `$set`, `$update`, `$subscribe`. |
| `DefineStoreHelpers.DefineDerived` | src/defineStoreHelpers.ts:52-85 | Corrected: a single store reaches `derived` as itself, with the combiner unwrapped. An array and the combiner reach it unchanged. A named map reaches it as its values, in entry order, plus a wrapper around the user's `fn`, which is in auto mode iff `fn` declares fewer than two parameters. The initial value comes from `createInitialValue`. |
| `DefineStoreHelpers.SingleStoreHandedWhole` | src/defineStoreHelpers.ts:27-33 | The corrected single-store form hands `derived` the store itself, whatever its own members are, in `derived`'s arity-based mode. It agrees with the code on every array, and on every named map whose combiner declares at least one parameter. |
| `DefineStoreHelpers.CombinerArgs` | src/defineStoreHelpers.ts:71-82 | The combiner receives an object with one entry per store name, binding `"$" + name` to that store's current value. It gets `undefined` for `set` under the unary wrapper and the real `set` otherwise. |
| `DefineStoreHelpers.NamedValuesUnderPrefixedNames` | src/defineStoreHelpers.ts:63-75 | In the named form, the combiner reads source `k`'s current value under `$k`, in entry order. |
| `DefineStoreHelpers.NamedModeMatchesPositional` | src/defineStoreHelpers.ts:57-84 | With the corrected choice, the named form is in auto mode exactly when the array form over the same values is. Both forms give `derived` the same sources. |

## Findings

| source | as written | input that shows it | evidently intended | confidence | as-written member | corrected member |
|---|---|---|---|---|---|---|
| src/defineStoreHelpers.ts:78 | `fn.length == 1` picks the unary callback; any other arity gets the two-parameter `fnWithObj` | `defineDerived({ a }, () => 42)`: `derived` gets a two-parameter callback, runs in manual-`set` mode and discards the 42, so the store keeps its initial value; `defineDerived([a], () => 42)` yields 42 | match `derived`'s own rule (auto mode iff the callback declares fewer than two parameters): `fn.length < 2` | medium, not executed; relies on Svelte's `derived` choosing auto mode iff `fn.length < 2` | `DefineStoreHelpers.CallbackAsWritten` (shown by `DefineStoreHelpers.ZeroArityCombinerLosesAutoMode`) | `DefineStoreHelpers.CallbackFor` (proved by `DefineStoreHelpers.NamedModeMatchesPositional`) |
| src/defineStoreHelpers.ts:57-63 | only arrays take the positional path. A single store, which the `Stores` type admits (lines 27-28), takes the named path, and `Object.entries(store)` splits it into its own members | `defineDerived(writable(1), (v) => v * 2)`: `derived` receives `[set, update, subscribe]` as its sources. Functions have no `subscribe` method, so subscribing to the derived store throws. The combiner would be handed `{ $set, $update, $subscribe }` rather than `1` | hand a single store to `derived` as it is, with `fn` unwrapped, as `StoresValues` (lines 32-33) types the combiner's argument as the store's value | medium, not executed; relies on Svelte's `derived` subscribing to each array element | `DefineStoreHelpers.DefineDerivedAsWritten` (shown by `DefineStoreHelpers.SingleStoreSplitIntoItsMembers`) | `DefineStoreHelpers.DefineDerived` (proved by `DefineStoreHelpers.SingleStoreHandedWhole`) |

`DefineStoreHelpers.DefineDerived` carries both corrections. It gives the same
result as the code on every array, and on every named map whose combiner
declares at least one parameter.

## Left out

- Proxy and `Reflect` semantics are not modelled. This covers invariants of the traps, property descriptors, `construct` and prototype changes. Each non-`apply` trap is modelled as "resolve with no input, then forward an opaque operation to the instance".
- Svelte's `writable`, `readable` and `derived`, and their start/stop notifiers, are not modelled. They are foreign library code. A constructed store is a fresh identity (`Base.Value.Instance`).
- `defineWritable` and `defineReadable` are left out. They are one-line wrappers that pass a factory to `defineStore`.
- `WeakMap` garbage collection is left out. The registry is a plain map, and nothing is ever removed from it.
- The ambient `$app/stores` session is an explicit parameter. A failure while reading that store is not modelled.
- The browser-session cache, its test reset, the prerender placeholder and the `$app/env` flags are left out. The tests refer to them, but `src/loadWithStoresHint.ts`, `src/svelteKitTypes.ts` and that revision of `src/useSession.ts` are not part of this model.
- The text of `LOAD_WITH_STORES_HINT` comes from a file outside this model. Its errors are the kinds `FetchUnavailable` and `SessionUnavailable`. The test at `src/__test__/defineStore._common_.ts:15-17` expects a message from that other revision. The `useSession.ts` of this revision throws "Call useLoad before calls to useSession" instead, and that is what is modelled.
- `src/useFetch.ts` (a projection of `useSession`) and `src/expandType.ts` (types only) are left out.
- A factory's use of the store input is reduced to one flag: whether construction reads `fetch`. Later reads of the getter see the same record fetch, which never changes.
- Callbacks of `useLoad` return plain objects. `Object.assign` of primitives, `null` or `undefined` results is not modelled.
- JavaScript values (`Base.Value.Object`) are their entry lists in enumeration order. Arrays as load-function arguments are not modelled.
- The results of `useLoad` callbacks and their merge are maps (`Registry.Obj`). They keep keys and values, but not the key order of `Object.assign`.
- The own entries of a store instance passed as the stores argument come from a host parameter (`LoadIntegration.Host.entriesOf`).
- An isolated store used as the handler of the stores form would receive the stores object as its input. The model calls it with no input.
- `DefineStore.GetStore`: if a resolver returns a session with no record, the model fails with `MissingSessionData`. This stands for the `TypeError` of destructuring `undefined`.
- `Registry.CallbacksRunInsideSession`: proved only for callbacks that keep `loadSession` and the registry discipline. A nested `useLoad` clears `loadSession` for the callbacks after it.
- `Registry.UseLoadRegisters`: proved only for callbacks that keep the registry discipline, which everything in the core does.
- `Resolution.UseSessionInsideUseLoad`: same condition as `Registry.CallbacksRunInsideSession`.
- `Resolution.Registering`: does not create a record for the ambient session, and does not merge a later input's `fetch` into an existing record. Neither resolver in the model does. Several tests assume a resolver that does both, from a revision of `src/useSession.ts` that is not part of this model. Those tests are:
  - `src/__test__/defineStore._common_.ts:35-65`: an ambient session with no prior `useLoad`, where the call succeeds;
  - `src/__test__/defineStore._common_.ts:151-163`: expects the missing-`fetch` error where the model gives the missing-session error;
  - `src/__test__/defineStore._common_.ts:165-179`: `store({ fetch })` under an ambient session makes that `fetch` available;
  - `src/__test__/defineStore.browser.spec.ts:19-28`: the browser-session cache.
- Two tests pass only with the input-aware resolver. Under `useSession` as written, their first store call fails (`DefineStore.ExplicitInputIgnoredAsWritten`):
  - `src/__test__/defineStore._common_.ts:20-33`: its first store call fails;
  - `src/__test__/defineStore.server.spec.ts:13-22`: the store call it expects to succeed fails.
- `DefineStoreHelpers.DefineDerived`: requires a function combiner, as the TypeScript signature does. `fn.length` of a non-function is not modelled.

=== FILE: base.dfy ===
/** The JavaScript values, identities and error kinds that the isolated-store
    core manipulates, reduced to what its behaviour depends on. */
module Base {

  datatype Option<+T> = None | Some(value: T)

  /** Outcome of an operation that may throw. */
  datatype Result<+T> = Ok(value: T) | Err(error: Error)

  /** Opaque object identities: sessions, captured `fetch` functions and
      constructed store instances are compared by reference only. */
  type SessionId = nat
  type FetchId = nat
  type StoreId = nat

  /** What a session slot (`loadSession`, `input.session`, the ambient
      session) can hold. Only an object can key a `WeakMap`. */
  datatype SessionValue = Nullish | Primitive | Ref(id: SessionId)

  /** The load input handed to a `load` function; only the two fields the
      core reads are kept. */
  datatype LoadInput = LoadInput(session: SessionValue, fetch: Option<FetchId>)

  /** A store factory passed to `defineStore`. It is identified by `key`
      (its reference); `readsFetch` says whether constructing a store reads
      `storeInput.fetch`. */
  datatype Factory = Factory(key: nat, readsFetch: bool)

  datatype Error =
    | SessionUnavailable          // useSession: the resolved session has no record
    | FetchUnavailable            // the store input's `fetch` getter found no fetch
    | OverloadMismatch(message: string)
    | InvalidWeakMapKey           // `WeakMap.set` with a key that is not an object
    | MissingSessionData          // destructuring `stores` of an absent record
    | NotCallable                 // calling a value that is not a function
    | Thrown(code: nat)           // an exception raised by code outside the core

  /** A JavaScript value, as far as the core distinguishes values. Objects are
      their own enumerable string-keyed entries, in enumeration order. */
  datatype Value =
    | Undefined
    | Null
    | Bool(b: bool)
    | Num(n: int)
    | Str(s: string)
    | Object(entries: seq<Entry>)
    | Function(key: nat, arity: nat, marker: Value) // `marker`: its IS_ISOLATED_STORE property
    | Isolated(factory: Factory)                     // a proxy returned by `defineStore`
    | Instance(id: StoreId)                          // a store built by a factory

  datatype Entry = Entry(key: string, value: Value)

  /** The `typeof` operator. */
  function TypeOf(v: Value): (t: string)
    ensures t == "function" <==> v.Function? || v.Isolated?
    ensures t == "object" <==> v.Null? || v.Object? || v.Instance?
    ensures t == "undefined" <==> v.Undefined?
  {
    match v
    case Undefined => "undefined"
    case Null => "object"
    case Bool(_) => "boolean"
    case Num(_) => "number"
    case Str(_) => "string"
    case Object(_) => "object"
    case Function(_, _, _) => "function"
    case Isolated(_) => "function"
    case Instance(_) => "object"
  }

  /** The keys of an entry list are pairwise distinct, as those of a real
      object are. */
  ghost predicate DistinctKeys(entries: seq<Entry>) {
    forall i, j :: 0 <= i < j < |entries| ==> entries[i].key != entries[j].key
  }
}

=== FILE: definestore.dfy ===
/** `defineStore`: a module-level store declaration that resolves, on every
    use, to the instance belonging to the current session. */
module DefineStore {
  import opened Base
  import opened Registry
  import opened Resolution

  /** The `fetch` getter of the store input: the record's captured fetch, or
      an error when no load input supplied one. */
  function StoreInputFetch(rec: Record): (r: Result<FetchId>)
    ensures r.Ok? <==> rec.fetch.Some?
    ensures r.Ok? ==> r.value == rec.fetch.value
    ensures r.Err? ==> r.error == FetchUnavailable
  {
    match rec.fetch
    case Some(f) => Ok(f)
    case None => Err(FetchUnavailable)
  }

  /** The store of `f` for session `sid`, constructed on first use. A
      construction that reads the store input's fetch fails when the record
      has none, and then nothing is stored. */
  function GetOrCreate(sid: SessionId, f: Factory, st: State): (r: (Result<StoreId>, State))
    requires sid in st.registry
    // the returned instance is the one recorded for (sid, f)
    ensures r.0.Ok? ==> sid in r.1.registry && f in r.1.registry[sid].stores && r.1.registry[sid].stores[f] == r.0.value
    // memoisation: an existing instance is returned and nothing changes
    ensures f in st.registry[sid].stores ==> r == (Ok(st.registry[sid].stores[f]), st)
    // the only failure: constructing needs a fetch the session never got
    ensures r.0.Err? <==> f !in st.registry[sid].stores && f.readsFetch && st.registry[sid].fetch.None?
    ensures r.0.Err? ==> r.0.error == FetchUnavailable && r.1 == st
    // a construction yields the fresh identity and bumps the counter once
    ensures r.0.Ok? && f !in st.registry[sid].stores ==> r.0.value == st.nextStore && r.1.nextStore == st.nextStore + 1
    ensures r.1.nextStore <= st.nextStore + 1
    // only key `f` of the session's map may be added
    ensures r.1.registry.Keys == st.registry.Keys
    ensures forall s :: s in st.registry && s != sid ==> r.1.registry[s] == st.registry[s]
    ensures r.1.registry[sid].fetch == st.registry[sid].fetch
    ensures r.1.registry[sid].stores.Keys <= st.registry[sid].stores.Keys + {f}
    ensures r.1.loadSession == st.loadSession
    ensures Extends(st, r.1)
    ensures Valid(st) ==> Valid(r.1)
  {
    var rec := st.registry[sid];
    if f in rec.stores then (Ok(rec.stores[f]), st)
    else if f.readsFetch && StoreInputFetch(rec).Err? then (Err(FetchUnavailable), st)
    else
      var id := st.nextStore;
      (Ok(id), st.(registry := st.registry[sid := rec.(stores := rec.stores[f := id])], nextStore := id + 1))
  }

  /** `getStore(input)`: resolve the session, then get or create the store of
      `f` in its record. */
  function GetStore(resolve: Resolver, f: Factory, input: Option<LoadInput>, st: State): (r: (Result<StoreId>, State))
    // a failed resolution fails the call with its error; no store is created
    ensures resolve(input, st).0.Err? ==> r == (Err(resolve(input, st).0.error), resolve(input, st).1)
    // on success the instance is the one the resolved session records for `f`
    ensures r.0.Ok? ==>
              && resolve(input, st).0.Ok?
              && resolve(input, st).0.value in r.1.registry
              && f in r.1.registry[resolve(input, st).0.value].stores
              && r.1.registry[resolve(input, st).0.value].stores[f] == r.0.value
    // a resolved session with a record gets or creates its store; one without
    // a record cannot be read
    ensures var (s, st1) := resolve(input, st);
            s.Ok? && s.value in st1.registry ==> r == GetOrCreate(s.value, f, st1)
    ensures var (s, st1) := resolve(input, st);
            s.Ok? && s.value !in st1.registry ==> r == (Err(MissingSessionData), st1)
    ensures r.1.nextStore <= resolve(input, st).1.nextStore + 1
    ensures Extends(resolve(input, st).1, r.1)
    ensures Valid(resolve(input, st).1) ==> Valid(r.1)
    ensures r.1.loadSession == resolve(input, st).1.loadSession
  {
    var (session, st1) := resolve(input, st);
    if session.Err? then (Err(session.error), st1)
    else if session.value !in st1.registry then (Err(MissingSessionData), st1)
    else GetOrCreate(session.value, f, st1)
  }

  /** The private marker symbol, or a named property. */
  datatype Prop = Marker | Named(name: string)

  /** Proxy traps other than `get` and `apply`. */
  datatype Trap =
    | Construct | DefineProperty | DeleteProperty | GetOwnPropertyDescriptor
    | GetPrototypeOf | Has | IsExtensible | OwnKeys | PreventExtensions
    | Set | SetPrototypeOf

  /** An operation performed on an isolated store. */
  datatype Op =
    | Apply(input: Option<LoadInput>)   // calling the store
    | Get(prop: Prop)                   // reading a property
    | Other(trap: Trap, prop: Prop)     // every other trap

  /** What the proxy answers: the session's instance (for a call), `true`
      (for the marker), or the operation forwarded to an instance. */
  datatype Reply = Store(id: StoreId) | MarkerTrue | Forwarded(target: StoreId, op: Op)

  /** The proxy handler of `defineStore(f)`. */
  function Dispatch(resolve: Resolver, f: Factory, op: Op, st: State): (r: (Result<Reply>, State))
    // calling resolves with the supplied input and returns the instance itself
    ensures op.Apply? ==>
              && r.1 == GetStore(resolve, f, op.input, st).1
              && (r.0.Ok? <==> GetStore(resolve, f, op.input, st).0.Ok?)
              && (r.0.Ok? ==> r.0.value == Store(GetStore(resolve, f, op.input, st).0.value))
              && (r.0.Err? ==> r.0.error == GetStore(resolve, f, op.input, st).0.error)
    // the marker is answered without resolving a session
    ensures op == Get(Marker) ==> r == (Ok(MarkerTrue), st)
    // everything else resolves afresh, without input, and is forwarded
    ensures !op.Apply? && op != Get(Marker) ==>
              && r.1 == GetStore(resolve, f, None, st).1
              && (r.0.Ok? <==> GetStore(resolve, f, None, st).0.Ok?)
              && (r.0.Ok? ==> r.0.value == Forwarded(GetStore(resolve, f, None, st).0.value, op))
              && (r.0.Err? ==> r.0.error == GetStore(resolve, f, None, st).0.error)
    // only a call yields an instance, and a call is never forwarded
    ensures r.0.Ok? ==> (r.0.value.Store? <==> op.Apply?)
  {
    match op
    case Get(Marker) => (Ok(MarkerTrue), st)
    case Apply(input) =>
      var (s, st1) := GetStore(resolve, f, input, st);
      (if s.Ok? then Ok(Store(s.value)) else Err(s.error), st1)
    case _ =>
      var (s, st1) := GetStore(resolve, f, None, st);
      (if s.Ok? then Ok(Forwarded(s.value, op)) else Err(s.error), st1)
  }

  /** The value of the marker property: for an isolated store it is `true`,
      mirroring the `get` trap's answer for the marker without a session
      (src/defineStore.ts:41-43, `Dispatch` on `Get(Marker)`). */
  function MarkerOf(v: Value): Value {
    match v
    case Isolated(_) => Bool(true)
    case Function(_, _, marker) => marker
    case _ => Undefined
  }

  /** `isIsolatedStore(v)`: a function whose marker is strictly `true`. */
  function IsIsolatedStore(v: Value): (b: bool)
    ensures b <==> v.Isolated? || (v.Function? && v.marker == Bool(true))
  {
    TypeOf(v) == "function" && MarkerOf(v) == Bool(true)
  }

  /** Every store `defineStore` returns passes the test, in every state and
      whatever the session; plain objects, plain functions, numbers and
      strings do not. */
  lemma IsolatedStoresRecognised(resolve: Resolver, f: Factory, st: State, key: nat, arity: nat, n: int, s: string)
    ensures IsIsolatedStore(Isolated(f))
    ensures Dispatch(resolve, f, Get(Marker), st).0 == Ok(MarkerTrue)
    ensures !IsIsolatedStore(Object([]))
    ensures !IsIsolatedStore(Function(key, arity, Undefined))
    ensures !IsIsolatedStore(Num(n)) && !IsIsolatedStore(Str(s))
    ensures !IsIsolatedStore(Function(key, arity, Num(1)))
  {
  }

  /** Through `useSession` as written, a resolved session stays resolved, to
      the same session, in every later state that keeps `loadSession` and the
      registry discipline. */
  lemma UseSessionStable(ambient: SessionValue, st: State, later: State)
    requires UseSession(st, ambient).Ok?
    requires Extends(st, later) && later.loadSession == st.loadSession
    ensures UseSession(later, ambient).Ok?
    ensures UseSession(later, ambient).value.session == UseSession(st, ambient).value.session
  {
  }

  /** Repeated use of a store in one session, through `useSession` as written,
      returns the same instance and changes nothing, also after any other
      activity that keeps the registry discipline: the factory runs at most
      once per session. */
  lemma GetStoreMemoised(ambient: SessionValue, f: Factory, i: Option<LoadInput>, j: Option<LoadInput>, st: State, later: State)
    requires GetStore(ReadOnly(ambient), f, i, st).0.Ok?
    requires Extends(GetStore(ReadOnly(ambient), f, i, st).1, later)
    requires later.loadSession == st.loadSession
    ensures GetStore(ReadOnly(ambient), f, j, later) == (GetStore(ReadOnly(ambient), f, i, st).0, later)
    ensures GetStore(ReadOnly(ambient), f, i, st).1.nextStore <= st.nextStore + 1
  {
    var (x, st1) := GetStore(ReadOnly(ambient), f, i, st);
    var sid := UseSession(st, ambient).value.session;
    UseSessionStable(ambient, st, st1);
    UseSessionStable(ambient, st1, later);
    assert UseSession(later, ambient).value.session == sid;
  }

  /** With an input-aware resolver, calling a store twice with the same input
      returns the same instance and the second call changes nothing. */
  lemma CallMemoised(ambient: SessionValue, f: Factory, inp: LoadInput, st: State)
    requires inp.session.Ref?
    requires GetStore(Registering(ambient), f, Some(inp), st).0.Ok?
    ensures var (x, st1) := GetStore(Registering(ambient), f, Some(inp), st);
            GetStore(Registering(ambient), f, Some(inp), st1) == (x, st1)
  {
    var (x, st1) := GetStore(Registering(ambient), f, Some(inp), st);
    assert inp.session.id in st1.registry;
    assert Register(inp.session, inp.fetch, st1).value == st1;
  }

  /** Store instances are isolated between sessions: getting the store of one
      factory for two different sessions, in any order of sound resolvers,
      yields two different instances. */
  lemma {:induction false} DistinctSessionsDistinctInstances(
    r1: Resolver, i1: Option<LoadInput>, r2: Resolver, i2: Option<LoadInput>, f: Factory, st: State)
    requires Valid(st) && Sound(r1) && Sound(r2)
    ensures var (x, st1) := GetStore(r1, f, i1, st);
            var (y, _) := GetStore(r2, f, i2, st1);
            x.Ok? && y.Ok? && r1(i1, st).0.value != r2(i2, st1).0.value ==> x.value != y.value
  {
    var (x, st1) := GetStore(r1, f, i1, st);
    if !x.Ok? || !GetStore(r2, f, i2, st1).0.Ok? || r1(i1, st).0.value == r2(i2, st1).0.value {
      return;
    }
    var s1 := r1(i1, st).0.value;
    var mid := r2(i2, st1).1;
    var (y, st2) := GetStore(r2, f, i2, st1);
    var s2 := r2(i2, st1).0.value;
    assert Valid(st1);
    assert Extends(st1, mid) && Valid(mid);
    ExtendsTransitive(st1, mid, st2);
    assert st2.registry[s1].stores[f] == x.value;
    assert st2.registry[s2].stores[f] == y.value;
    assert Valid(st2);
  }

  /** The store of a session-less test: two load inputs naming different
      sessions give two distinct instances of a factory that needs no fetch. */
  lemma OneInstancePerSession(ambient: SessionValue, a: SessionId, b: SessionId, f: Factory, st: State)
    requires a != b && !f.readsFetch && Valid(st)
    ensures var (x, st1) := GetStore(Registering(ambient), f, Some(LoadInput(Ref(a), None)), st);
            var (y, st2) := GetStore(Registering(ambient), f, Some(LoadInput(Ref(b), None)), st1);
            x.Ok? && y.Ok? && x.value != y.value
  {
    RegisteringSound(ambient);
    DistinctSessionsDistinctInstances(
      Registering(ambient), Some(LoadInput(Ref(a), None)),
      Registering(ambient), Some(LoadInput(Ref(b), None)), f, st);
  }

  /** Through `useSession` as written, a load input naming a session does
      not help: with no session current and none registered, calling the
      store with that input fails and changes nothing. */
  lemma ExplicitInputIgnoredAsWritten(ambient: SessionValue, f: Factory, a: SessionId, st: State)
    requires st.loadSession.Nullish? && (!ambient.Ref? || ambient.id !in st.registry)
    ensures GetStore(ReadOnly(ambient), f, Some(LoadInput(Ref(a), None)), st) == (Err(SessionUnavailable), st)
  {
  }

  /** With no session anywhere, any property access on an isolated store
      fails with `SessionUnavailable` and creates nothing. */
  lemma AccessWithoutSessionFails(ambient: SessionValue, f: Factory, op: Op, st: State)
    requires st.loadSession.Nullish?
    requires !ambient.Ref? || ambient.id !in st.registry
    requires !op.Apply? && op != Get(Marker)
    ensures Dispatch(ReadOnly(ambient), f, op, st) == (Err(SessionUnavailable), st)
  {
  }

  /** Every forwarded operation resolves again: when the ambient session
      changes between two operations, they reach the two sessions' own
      instances. */
  lemma ForwardingFollowsSession(a: SessionId, b: SessionId, f: Factory, op1: Op, op2: Op, st: State)
    requires Valid(st) && st.loadSession.Nullish? && a != b
    requires a in st.registry && b in st.registry
    requires !f.readsFetch
    requires !op1.Apply? && op1 != Get(Marker) && !op2.Apply? && op2 != Get(Marker)
    ensures var (x, st1) := Dispatch(ReadOnly(Ref(a)), f, op1, st);
            var (y, st2) := Dispatch(ReadOnly(Ref(b)), f, op2, st1);
            x.Ok? && y.Ok? && x.value.target != y.value.target
  {
    ReadOnlySound(Ref(a));
    ReadOnlySound(Ref(b));
    var (x, st1) := GetStore(ReadOnly(Ref(a)), f, None, st);
    assert b in st1.registry;
    DistinctSessionsDistinctInstances(ReadOnly(Ref(a)), None, ReadOnly(Ref(b)), None, f, st);
  }

  /** Calling a store with an explicit session registers that session but
      does not make it current: a later property access, outside `useLoad`
      and with no ambient session on record, still fails. */
  lemma ExplicitSessionNotRemembered(ambient: SessionValue, s: SessionId, fetch: Option<FetchId>, f: Factory, op: Op, st: State)
    requires st.loadSession.Nullish?
    requires !ambient.Ref? || (ambient.id != s && ambient.id !in st.registry)
    requires !op.Apply? && op != Get(Marker)
    ensures var st1 := Dispatch(Registering(ambient), f, Apply(Some(LoadInput(Ref(s), fetch))), st).1;
            Dispatch(Registering(ambient), f, op, st1) == (Err(SessionUnavailable), st1)
  {
    var registered := Register(Ref(s), fetch, st).value;
    var st1 := Dispatch(Registering(ambient), f, Apply(Some(LoadInput(Ref(s), fetch))), st).1;
    assert st1 == GetStore(Registering(ambient), f, Some(LoadInput(Ref(s), fetch)), st).1;
    assert st1.loadSession.Nullish?;
    assert !ambient.Ref? || ambient.id !in registered.registry;
  }

  /** A `useLoad` callback that uses the store of `f` during load, as
      load-time initialisation does. */
  function UseStoreInLoad(ambient: SessionValue, f: Factory): Callback {
    (s: State) =>
      var (x, s1) := GetStore(ReadOnly(ambient), f, None, s);
      (if x.Ok? then Ok(map[]) else Err(x.error), s1)
  }

  /** From module load, a store created inside `useLoad`'s callbacks stays in
      the session's record after `useLoad` returns, and a later use of the
      store in that session gets that very instance without creating one. */
  lemma StoreCreatedDuringLoadPersists(ambient: SessionValue, a: SessionId, f: Factory)
    requires !f.readsFetch && ambient == Ref(a)
    ensures Valid(Initial)
    ensures var (res, st1) := UseLoad(LoadInput(Ref(a), None), [UseStoreInLoad(ambient, f)], Initial);
            && res.Ok?
            && a in st1.registry && f in st1.registry[a].stores
            && GetStore(ReadOnly(ambient), f, None, st1) == (Ok(st1.registry[a].stores[f]), st1)
  {
    var registered := Register(Ref(a), None, Initial).value.(loadSession := Ref(a));
    var (x, s1) := GetStore(ReadOnly(ambient), f, None, registered);
    assert x.Ok?;
    CallAllFollowsEntered([UseStoreInLoad(ambient, f)], registered);
  }
}

=== FILE: definestorehelpers.dfy ===
/** `defineDerived`: an isolated derived store over positional or named
    source stores. The store library's `derived` is not modelled; what is
    modelled is what it receives. */
module DefineStoreHelpers {
  import opened Base

  /** The source stores: one store (with its own enumerable entries, which
      is what `Object.entries` sees of it), an array, or an object of named
      stores given by its entries in enumeration order. */
  datatype Sources =
    | Single(store: Value, own: seq<Entry>)
    | Positional(stores: seq<Value>)
    | Named(entries: seq<Entry>)

  /** The first argument of `derived`: one store, or an array of stores. */
  datatype DerivedSources = OneStore(store: Value) | StoreArray(stores: seq<Value>)

  /** The callback handed to `derived`: the combiner itself (array form), or
      the wrapper that rebuilds the named object, with its declared number of
      parameters. */
  datatype DerivedCallback =
    | AsGiven(fn: Value)
    | WithObject(fn: Value, names: seq<string>, length: nat)

  /** The arguments of the `derived(...)` call made for every session. */
  datatype Derivation = Derivation(sources: DerivedSources, callback: DerivedCallback, initial: Value)

  /** `derived` recomputes automatically iff its callback declares fewer than
      two parameters; otherwise it hands the callback a `set` function. */
  function AutoMode(c: DerivedCallback): bool
    requires c.AsGiven? ==> c.fn.Function?
  {
    match c
    case AsGiven(fn) => fn.arity < 2
    case WithObject(_, _, length) => length < 2
  }

  /** The `reduce` that splits the entries into names and values. */
  function SplitEntries(entries: seq<Entry>): (r: (seq<string>, seq<Value>))
    ensures |r.0| == |entries| && |r.1| == |entries|
    ensures forall i :: 0 <= i < |entries| ==> r.0[i] == entries[i].key && r.1[i] == entries[i].value
  {
    if |entries| == 0 then ([], [])
    else
      var (names, values) := SplitEntries(entries[..|entries| - 1]);
      var last := entries[|entries| - 1];
      (names + [last.key], values + [last.value])
  }

  function Prefix(name: string): string {
    "$" + name
  }

  /** `Object.fromEntries(names.map((key, i) => ['$' + key, values[i]]))`; an
      index past the values reads `undefined`. */
  function PrefixedObject(names: seq<string>, values: seq<Value>): (r: seq<Entry>)
    ensures |r| == |names|
    ensures forall i :: 0 <= i < |names| ==>
              r[i] == Entry(Prefix(names[i]), if i < |values| then values[i] else Undefined)
  {
    if |names| == 0 then []
    else
      var i := |names| - 1;
      PrefixedObject(names[..i], values) + [Entry(Prefix(names[i]), if i < |values| then values[i] else Undefined)]
  }

  /** Prefixing loses nothing: the name can be read back. */
  lemma PrefixInjective(a: string, b: string)
    requires Prefix(a) == Prefix(b)
    ensures a == b
  {
    assert a == Prefix(a)[1..];
    assert b == Prefix(b)[1..];
  }

  /** Distinct store names give distinct `$` keys, so the rebuilt object keeps
      one entry per source store. */
  lemma PrefixedKeysDistinct(entries: seq<Entry>, values: seq<Value>)
    requires DistinctKeys(entries)
    ensures DistinctKeys(PrefixedObject(SplitEntries(entries).0, values))
  {
    var names := SplitEntries(entries).0;
    var r := PrefixedObject(names, values);
    forall i, j | 0 <= i < j < |r| ensures r[i].key != r[j].key {
      assert names[i] != names[j];
      if r[i].key == r[j].key {
        PrefixInjective(names[i], names[j]);
      }
    }
  }

  /** The callback for the named form as written: the unary wrapper iff the
      combiner declares exactly one parameter. */
  function CallbackAsWritten(fn: Value, names: seq<string>): (c: DerivedCallback)
    requires fn.Function?
    ensures c.WithObject? && c.fn == fn && c.names == names
    ensures c.length == 1 <==> fn.arity == 1
  {
    WithObject(fn, names, if fn.arity == 1 then 1 else 2)
  }

  /** A combiner with no parameters is recomputed automatically in the array
      form, but the named form as written hands `derived` a two-parameter
      callback, so its return value is never stored. */
  lemma ZeroArityCombinerLosesAutoMode(key: nat, marker: Value, names: seq<string>)
    ensures AutoMode(AsGiven(Function(key, 0, marker)))
    ensures !AutoMode(CallbackAsWritten(Function(key, 0, marker), names))
  {
  }

  /** The callback for the named form, choosing the unary wrapper exactly
      when `derived` would recompute the combiner automatically. */
  function CallbackFor(fn: Value, names: seq<string>): (c: DerivedCallback)
    requires fn.Function?
    ensures c.WithObject? && c.fn == fn && c.names == names
    ensures c.length == 1 <==> fn.arity < 2
    ensures fn.arity != 0 ==> c == CallbackAsWritten(fn, names)
  {
    WithObject(fn, names, if fn.arity < 2 then 1 else 2)
  }

  /** `createInitialValue()` with the default `() => undefined`. */
  function InitialValue(createInitialValue: Option<Value>): (v: Value)
    ensures createInitialValue.None? ==> v == Undefined
  {
    match createInitialValue
    case None => Undefined
    case Some(v) => v
  }

  /** `defineDerived(stores, fn, createInitialValue)` as written: anything
      that is not an array takes the named path, a single store included, and
      the unary wrapper is chosen iff `fn.length == 1`. */
  function DefineDerivedAsWritten(stores: Sources, fn: Value, createInitialValue: Option<Value>): (d: Derivation)
    requires fn.Function?
    ensures stores.Positional? ==> d.sources == StoreArray(stores.stores) && d.callback == AsGiven(fn)
    ensures !stores.Positional? ==>
              var entries := if stores.Single? then stores.own else stores.entries;
              && d.sources.StoreArray? && |d.sources.stores| == |entries|
              && (forall i :: 0 <= i < |entries| ==> d.sources.stores[i] == entries[i].value)
              && d.callback == CallbackAsWritten(fn, SplitEntries(entries).0)
    ensures d.initial == InitialValue(createInitialValue)
  {
    match stores
    case Positional(s) => Derivation(StoreArray(s), AsGiven(fn), InitialValue(createInitialValue))
    case Named(entries) =>
      var (names, values) := SplitEntries(entries);
      Derivation(StoreArray(values), CallbackAsWritten(fn, names), InitialValue(createInitialValue))
    case Single(_, own) =>
      var (names, values) := SplitEntries(own);
      Derivation(StoreArray(values), CallbackAsWritten(fn, names), InitialValue(createInitialValue))
  }

  /** A single writable store, whose own entries are its `set`, `update` and
      `subscribe` methods, reaches `derived` as the array of those three
      functions: the store itself is not among the sources, and the combiner
      is handed an object keyed `$set`, `$update`, `$subscribe` instead of the
      store's value. */
  lemma SingleStoreSplitIntoItsMembers(store: Value, fn: Value, init: Option<Value>, k: nat)
    requires store.Instance? && fn.Function?
    ensures var own := [Entry("set", Function(k, 1, Undefined)), Entry("update", Function(k + 1, 1, Undefined)),
                        Entry("subscribe", Function(k + 2, 2, Undefined))];
            var d := DefineDerivedAsWritten(Single(store, own), fn, init);
            && d.sources == StoreArray([own[0].value, own[1].value, own[2].value])
            && store !in d.sources.stores
            && d.callback.WithObject? && d.callback.names == ["set", "update", "subscribe"]
  {
  }

  /** `defineDerived(stores, fn, createInitialValue)`: the `derived` call its
      factory makes. A single store is handed to `derived` as it is, with the
      combiner unwrapped, and the named form chooses its wrapper by
      `CallbackFor`. */
  function DefineDerived(stores: Sources, fn: Value, createInitialValue: Option<Value>): (d: Derivation)
    requires fn.Function?
    ensures stores.Single? ==> d.sources == OneStore(stores.store) && d.callback == AsGiven(fn)
    ensures stores.Positional? ==> d.sources == StoreArray(stores.stores) && d.callback == AsGiven(fn)
    ensures stores.Named? ==> d.sources.StoreArray? && |d.sources.stores| == |stores.entries| && d.callback.WithObject?
    ensures stores.Named? ==> d.callback.names == SplitEntries(stores.entries).0
    ensures stores.Named? ==> d.callback.fn == fn && (d.callback.length < 2 <==> fn.arity < 2)
    ensures stores.Named? ==> forall i :: 0 <= i < |stores.entries| ==> d.sources.stores[i] == stores.entries[i].value
    ensures d.initial == InitialValue(createInitialValue)
  {
    match stores
    case Single(store, _) => Derivation(OneStore(store), AsGiven(fn), InitialValue(createInitialValue))
    case Positional(s) => Derivation(StoreArray(s), AsGiven(fn), InitialValue(createInitialValue))
    case Named(entries) =>
      var (names, values) := SplitEntries(entries);
      Derivation(StoreArray(values), CallbackFor(fn, names), InitialValue(createInitialValue))
  }

  /** The corrected single-store form matches `derived`'s own single-store
      form: the store is the one source, the combiner receives its value
      directly, and the store's own members play no part. It agrees with the
      code as written on every array and on every named map whose combiner
      declares at least one parameter. */
  lemma SingleStoreHandedWhole(store: Value, own: seq<Entry>, other: seq<Entry>, fn: Value, init: Option<Value>)
    requires fn.Function?
    ensures DefineDerived(Single(store, own), fn, init).sources == OneStore(store)
    ensures DefineDerived(Single(store, own), fn, init) == DefineDerived(Single(store, other), fn, init)
    ensures AutoMode(DefineDerived(Single(store, own), fn, init).callback) <==> fn.arity < 2
    ensures forall s :: DefineDerived(Positional(s), fn, init) == DefineDerivedAsWritten(Positional(s), fn, init)
    ensures fn.arity != 0 ==> forall e :: DefineDerived(Named(e), fn, init) == DefineDerivedAsWritten(Named(e), fn, init)
  {
  }

  /** The arguments the combiner finally receives when `derived` calls the
      callback with the current `values` (and its `set` function, in manual mode). */
  function CombinerArgs(c: DerivedCallback, values: seq<Value>, setter: Value): (args: (Value, Value))
    requires c.WithObject?
    ensures args.0 == Object(PrefixedObject(c.names, values))
    ensures |args.0.entries| == |c.names|
    ensures forall i :: 0 <= i < |c.names| && i < |values| ==> args.0.entries[i] == Entry(Prefix(c.names[i]), values[i])
    ensures c.length < 2 ==> args.1 == Undefined
    ensures c.length >= 2 ==> args.1 == setter
  {
    (Object(PrefixedObject(c.names, values)), if c.length < 2 then Undefined else setter)
  }

  /** In the named form the combiner reads the value of source `k` under
      `$k`, in the order of the entries. */
  lemma NamedValuesUnderPrefixedNames(entries: seq<Entry>, fn: Value, init: Option<Value>, values: seq<Value>, setter: Value)
    requires fn.Function?
    requires |values| == |entries|
    ensures var d := DefineDerived(Named(entries), fn, init);
            var obj := CombinerArgs(d.callback, values, setter).0.entries;
            && |obj| == |entries|
            && forall i :: 0 <= i < |entries| ==> obj[i] == Entry(Prefix(entries[i].key), values[i])
  {
  }

  /** With the corrected choice, the named form recomputes automatically
      exactly when the positional form over the same combiner does. */
  lemma NamedModeMatchesPositional(entries: seq<Entry>, fn: Value, init: Option<Value>)
    requires fn.Function?
    ensures AutoMode(DefineDerived(Named(entries), fn, init).callback) ==
            AutoMode(DefineDerived(Positional(SplitEntries(entries).1), fn, init).callback)
    ensures DefineDerived(Named(entries), fn, init).sources ==
            DefineDerived(Positional(SplitEntries(entries).1), fn, init).sources
  {
  }
}

=== FILE: loadwithstores.dfy ===
/** `loadWithStores`: builds a SvelteKit `load` function that resolves the
    session first and then dispatches on the shape of its arguments. */
module LoadIntegration {
  import opened Base
  import opened Registry
  import opened Resolution
  import opened DefineStore
  import OverloadError

  /** What a function value is called with. */
  datatype Args = WithInput(input: LoadInput) | WithStores(stores: Value, input: LoadInput)

  /** Application code the load function calls, and the own entries of store
      instances (objects built by the store library). */
  datatype Host = Host(call: (Value, Args, State) -> (Result<Value>, State), entriesOf: StoreId -> seq<Entry>)

  /** Calling `callee`: an isolated store goes through its `apply` trap; a
      plain function is application code; anything else is not callable. */
  function Call(resolve: Resolver, host: Host, callee: Value, args: Args, st: State): (r: (Result<Value>, State))
    ensures callee.Isolated? && args.WithInput? ==>
              var (s, st1) := GetStore(resolve, callee.factory, Some(args.input), st);
              && r.1 == st1
              && (r.0.Ok? <==> s.Ok?)
              && (r.0.Ok? ==> r.0.value == Instance(s.value))
              && (r.0.Err? ==> r.0.error == s.error)
    ensures callee.Function? ==> r == host.call(callee, args, st)
    ensures TypeOf(callee) != "function" ==> r == (Err(NotCallable), st)
  {
    match callee
    case Isolated(f) =>
      var input := if args.WithInput? then Some(args.input) else None;
      var (reply, st1) := Dispatch(resolve, f, Apply(input), st);
      (if reply.Ok? then Ok(Instance(reply.value.id)) else Err(reply.error), st1)
    case Function(_, _, _) => host.call(callee, args, st)
    case _ => (Err(NotCallable), st)
  }

  /** `Object.entries(isolatedStores).map(([key, store]) => [key, store(input)])`:
      each value called once with the input, left to right, keys kept. */
  function ResolveEntries(resolve: Resolver, host: Host, entries: seq<Entry>, input: LoadInput, st: State): (r: (Result<seq<Entry>>, State))
    ensures r.0.Ok? ==> |r.0.value| == |entries|
    ensures r.0.Ok? ==> forall i :: 0 <= i < |entries| ==> r.0.value[i].key == entries[i].key
  {
    if |entries| == 0 then (Ok([]), st)
    else
      var (first, st1) := Call(resolve, host, entries[0].value, WithInput(input), st);
      if first.Err? then (Err(first.error), st1)
      else
        var (rest, st2) := ResolveEntries(resolve, host, entries[1..], input, st1);
        if rest.Err? then (rest, st2)
        else (Ok([Entry(entries[0].key, first.value)] + rest.value), st2)
  }

  /** The call forms of `loadWithStores`, tried in this order. */
  datatype Form = NoArguments | LoadOnly | StoresAndLoad | NoMatch

  /** The `typeof` tests of the returned load function. */
  function FormOf(arg1: Value, arg2: Value): (form: Form)
    ensures form == NoArguments <==> arg1.Undefined?
    ensures form == LoadOnly <==> arg1.Function? || arg1.Isolated?
    ensures form == StoresAndLoad <==>
              (arg1.Null? || arg1.Object? || arg1.Instance?) && (arg2.Function? || arg2.Isolated?)
    ensures form == NoMatch <==>
              || arg1.Bool? || arg1.Num? || arg1.Str?
              || ((arg1.Null? || arg1.Object? || arg1.Instance?) && !(arg2.Function? || arg2.Isolated?))
  {
    if TypeOf(arg1) == "undefined" then NoArguments
    else if TypeOf(arg1) == "function" then LoadOnly
    else if TypeOf(arg1) == "object" && TypeOf(arg2) == "function" then StoresAndLoad
    else NoMatch
  }

  /** `Object.entries` of a non-null object. */
  function EntriesOf(host: Host, v: Value): seq<Entry> {
    match v
    case Object(entries) => entries
    case Instance(id) => host.entriesOf(id)
    case _ => []
  }

  /** `overload_3`: resolve the named stores (none for `null`) and call the
      handler with them and the input. */
  function WithStoresForm(resolve: Resolver, host: Host, stores: Value, handler: Value, input: LoadInput, st: State): (r: (Result<Value>, State))
    ensures stores.Null? ==> r == Call(resolve, host, handler, WithStores(Undefined, input), st)
    ensures !stores.Null? && r.0.Ok? ==> ResolveEntries(resolve, host, EntriesOf(host, stores), input, st).0.Ok?
  {
    if stores.Null? then Call(resolve, host, handler, WithStores(Undefined, input), st)
    else
      var (resolved, st1) := ResolveEntries(resolve, host, EntriesOf(host, stores), input, st);
      if resolved.Err? then (Err(resolved.error), st1)
      else Call(resolve, host, handler, WithStores(Object(resolved.value), input), st1)
  }

  /** The dispatch of the load function, after the session is resolved. */
  function Overloads(resolve: Resolver, host: Host, arg1: Value, arg2: Value, input: LoadInput, st: State): (r: (Result<Value>, State))
    ensures arg1.Undefined? ==> r == (Ok(Object([])), st)
    ensures FormOf(arg1, arg2) == LoadOnly ==> r == Call(resolve, host, arg1, WithInput(input), st)
    ensures FormOf(arg1, arg2) == NoMatch ==>
              r == (Err(OverloadMismatch("No overload matched the provided arguments.")), st)
  {
    match FormOf(arg1, arg2)
    case NoArguments => (Ok(Object([])), st)
    case LoadOnly => Call(resolve, host, arg1, WithInput(input), st)
    case StoresAndLoad => WithStoresForm(resolve, host, arg1, arg2, input, st)
    case NoMatch => (Err(OverloadMismatch(OverloadError.OverloadMessage())), st)
  }

  /** The load function returned by `loadWithStores(arg1, arg2)`, applied to
      `input`: the session is resolved from the input first, and its failure
      is the load's failure. */
  function LoadFunction(resolve: Resolver, host: Host, arg1: Value, arg2: Value, input: LoadInput, st: State): (r: (Result<Value>, State))
    ensures resolve(Some(input), st).0.Err? ==> r == (Err(resolve(Some(input), st).0.error), resolve(Some(input), st).1)
    ensures resolve(Some(input), st).0.Ok? ==> r == Overloads(resolve, host, arg1, arg2, input, resolve(Some(input), st).1)
    ensures r.0.Ok? ==> resolve(Some(input), st).0.Ok?
    ensures Sound(resolve) && (arg1.Undefined? || FormOf(arg1, arg2) == NoMatch) ==> Extends(st, r.1)
  {
    var (session, st1) := resolve(Some(input), st);
    if session.Err? then (Err(session.error), st1)
    else Overloads(resolve, host, arg1, arg2, input, st1)
  }

  /** The forms are told apart by the first argument alone, except that an
      object first argument needs a function second: a function first
      argument makes the second irrelevant. */
  lemma SecondArgumentIgnored(resolve: Resolver, host: Host, arg1: Value, a: Value, b: Value, input: LoadInput, st: State)
    requires arg1.Undefined? || arg1.Function? || arg1.Isolated?
    ensures LoadFunction(resolve, host, arg1, a, input, st) == LoadFunction(resolve, host, arg1, b, input, st)
  {
  }

  /** `null` is an object to `typeof`: with a handler it selects the stores
      form, and the handler receives `undefined` for the stores. */
  lemma NullStoresPassUndefined(resolve: Resolver, host: Host, handler: Value, input: LoadInput, st: State)
    requires handler.Function?
    ensures Overloads(resolve, host, Null, handler, input, st) == host.call(handler, WithStores(Undefined, input), st)
  {
  }

  /** With an input-aware resolver, every call of the load function
      registers the input's session before dispatching, so even the empty
      form leaves a record behind. */
  lemma LoadRegistersSession(ambient: SessionValue, host: Host, arg1: Value, arg2: Value, input: LoadInput, st: State)
    requires input.session.Ref?
    ensures var registered := Register(input.session, input.fetch, st).value;
            && input.session.id in registered.registry
            && Extends(st, registered)
            && LoadFunction(Registering(ambient), host, arg1, arg2, input, st) ==
               Overloads(Registering(ambient), host, arg1, arg2, input, registered)
  {
  }

  /** With `useSession` as written, nothing is registered: the load function
      fails, for every argument shape, unless `useLoad` registered the
      current session before. */
  lemma LoadNeedsPriorUseLoad(ambient: SessionValue, host: Host, arg1: Value, arg2: Value, input: LoadInput, st: State)
    requires UseSession(st, ambient).Err?
    ensures LoadFunction(ReadOnly(ambient), host, arg1, arg2, input, st) == (Err(SessionUnavailable), st)
  {
  }

  /** Resolving only isolated stores through `useSession` as written keeps
      the registry discipline and leaves `loadSession` alone. */
  lemma {:induction false} ResolveIsolatedFrame(ambient: SessionValue, host: Host, entries: seq<Entry>, input: LoadInput, st: State)
    requires forall i :: 0 <= i < |entries| ==> entries[i].value.Isolated?
    ensures Extends(st, ResolveEntries(ReadOnly(ambient), host, entries, input, st).1)
    ensures ResolveEntries(ReadOnly(ambient), host, entries, input, st).1.loadSession == st.loadSession
    decreases |entries|
  {
    if |entries| > 0 {
      var step := Call(ReadOnly(ambient), host, entries[0].value, WithInput(input), st);
      assert step.1 == GetStore(ReadOnly(ambient), entries[0].value.factory, Some(input), st).1;
      if step.0.Ok? {
        ResolveIsolatedFrame(ambient, host, entries[1..], input, step.1);
        ExtendsTransitive(st, step.1, ResolveEntries(ReadOnly(ambient), host, entries[1..], input, step.1).1);
      }
    }
  }

  /** One step of resolving named stores whose first value is an isolated
      store: its instance heads the result, the rest is resolved after it. */
  lemma ResolveIsolatedStep(ambient: SessionValue, host: Host, entries: seq<Entry>, input: LoadInput, st: State)
    requires |entries| > 0 && entries[0].value.Isolated?
    requires ResolveEntries(ReadOnly(ambient), host, entries, input, st).0.Ok?
    ensures var first := GetStore(ReadOnly(ambient), entries[0].value.factory, Some(input), st);
            var rest := ResolveEntries(ReadOnly(ambient), host, entries[1..], input, first.1);
            var r := ResolveEntries(ReadOnly(ambient), host, entries, input, st);
            && first.0.Ok? && rest.0.Ok? && r.1 == rest.1
            && r.0.value == [Entry(entries[0].key, Instance(first.0.value))] + rest.0.value
  {
    var first := GetStore(ReadOnly(ambient), entries[0].value.factory, Some(input), st);
    var step := Call(ReadOnly(ambient), host, entries[0].value, WithInput(input), st);
    assert step.1 == first.1;
  }

  /** The stores form hands the handler, for every named isolated store, the
      instance that resolving that store by hand afterwards returns. */
  lemma {:induction false} StoresMatchManualResolution(ambient: SessionValue, host: Host, entries: seq<Entry>, input: LoadInput, st: State)
    requires forall i :: 0 <= i < |entries| ==> entries[i].value.Isolated?
    requires ResolveEntries(ReadOnly(ambient), host, entries, input, st).0.Ok?
    ensures var r := ResolveEntries(ReadOnly(ambient), host, entries, input, st);
            forall i :: 0 <= i < |entries| ==>
              && r.0.value[i].value.Instance?
              && GetStore(ReadOnly(ambient), entries[i].value.factory, None, r.1) == (Ok(r.0.value[i].value.id), r.1)
    decreases |entries|
  {
    if |entries| > 0 {
      var r := ResolveEntries(ReadOnly(ambient), host, entries, input, st);
      var f := entries[0].value.factory;
      var first := GetStore(ReadOnly(ambient), f, Some(input), st);
      var tail := entries[1..];
      var rest := ResolveEntries(ReadOnly(ambient), host, tail, input, first.1);
      ResolveIsolatedStep(ambient, host, entries, input, st);
      StoresMatchManualResolution(ambient, host, tail, input, first.1);
      ResolveIsolatedFrame(ambient, host, tail, input, first.1);
      GetStoreMemoised(ambient, f, Some(input), None, st, r.1);
      forall i | 0 < i < |entries|
        ensures r.0.value[i].value.Instance?
        ensures GetStore(ReadOnly(ambient), entries[i].value.factory, None, r.1) == (Ok(r.0.value[i].value.id), r.1)
      {
        assert entries[i] == tail[i - 1];
        assert r.0.value[i] == rest.0.value[i - 1];
      }
    }
  }

  /** The stores form through `useSession` as written: the handler receives
      an object with the same keys, in the same order, each bound to the
      instance of its isolated store in the current session. */
  lemma StoresFormHandsInstances(ambient: SessionValue, host: Host, entries: seq<Entry>, handler: Value, input: LoadInput, st: State)
    requires handler.Function?
    requires UseSession(st, ambient).Ok?
    requires forall i :: 0 <= i < |entries| ==> entries[i].value.Isolated?
    ensures var r := ResolveEntries(ReadOnly(ambient), host, entries, input, st);
            r.0.Ok? ==>
            && LoadFunction(ReadOnly(ambient), host, Object(entries), handler, input, st) ==
               host.call(handler, WithStores(Object(r.0.value), input), r.1)
            && |r.0.value| == |entries|
            && forall i :: 0 <= i < |entries| ==>
                 && r.0.value[i].key == entries[i].key
                 && r.0.value[i].value.Instance?
                 && GetStore(ReadOnly(ambient), entries[i].value.factory, None, r.1) == (Ok(r.0.value[i].value.id), r.1)
  {
    if ResolveEntries(ReadOnly(ambient), host, entries, input, st).0.Ok? {
      StoresMatchManualResolution(ambient, host, entries, input, st);
    }
  }
}

=== FILE: overloaderror.dfy ===
/** The message of `OverloadError`, thrown when a load helper is called with
    arguments that match none of its forms. */
module OverloadError {

  const BaseMessage := "No overload matched the provided arguments."

  /** The error message for a supplied `message` (default: empty). */
  function OverloadMessage(message: string := ""): (m: string)
    ensures |m| >= |BaseMessage| && m[..|BaseMessage|] == BaseMessage
    ensures message == "" ==> m == "No overload matched the provided arguments."
    ensures message != "" ==> m == BaseMessage + " " + message
    ensures |m| > |BaseMessage| <==> message != ""
    ensures |m| > |BaseMessage| ==> m[|BaseMessage|] == ' '
  {
    if |message| > 0 then BaseMessage + (" " + message) else BaseMessage
  }

  /** Recover the supplied message from an error message. */
  function SuppliedMessage(m: string): (message: string)
    requires |m| >= |BaseMessage|
  {
    if |m| > |BaseMessage| then m[|BaseMessage| + 1..] else ""
  }

  /** The supplied message can be read back from the error message, so two
      different messages never produce the same error text. */
  lemma MessageRoundTrip(message: string)
    ensures SuppliedMessage(OverloadMessage(message)) == message
  {
    if message != "" {
      assert OverloadMessage(message) == BaseMessage + " " + message;
      assert OverloadMessage(message)[|BaseMessage| + 1..] == message;
    }
  }

  lemma MessageInjective(a: string, b: string)
    requires OverloadMessage(a) == OverloadMessage(b)
    ensures a == b
  {
    MessageRoundTrip(a);
    MessageRoundTrip(b);
  }
}

=== FILE: useload.dfy ===
/** The session registry (`sessionMap`), the `loadSession` slot, and
    `useLoad`, which registers a session and runs callbacks inside it. */
module Registry {
  import opened Base

  /** One session's data: the stores built for it, keyed by factory, and the
      `fetch` captured when the record was created. */
  datatype Record = Record(stores: map<Factory, StoreId>, fetch: Option<FetchId>)

  /** The process-wide mutable state of the core. `nextStore` is the identity
      the next constructed store receives, so that every construction yields
      a fresh instance. */
  datatype State = State(registry: map<SessionId, Record>, loadSession: SessionValue, nextStore: StoreId)

  /** The state at module load: no sessions, `loadSession = null`. */
  const Initial := State(map[], Nullish, 0)

  /** A plain object returned by a callback, as the map of its own keys. */
  type Obj = map<string, Value>

  /** A `useLoad` callback: arbitrary code that may use the core. */
  type Callback = State -> (Result<Obj>, State)

  /** Store identities are below the counter and no instance is shared by two
      (session, factory) pairs. */
  ghost predicate Valid(st: State) {
    && (forall s, f :: s in st.registry && f in st.registry[s].stores ==> st.registry[s].stores[f] < st.nextStore)
    && (forall s1, f1, s2, f2 ::
          && s1 in st.registry && f1 in st.registry[s1].stores
          && s2 in st.registry && f2 in st.registry[s2].stores
          && (s1 != s2 || f1 != f2)
          ==> st.registry[s1].stores[f1] != st.registry[s2].stores[f2])
  }

  /** `b` is reachable from `a` under the insert-if-absent discipline: no
      record, no captured fetch and no store instance is removed or replaced,
      and the counter never goes back. */
  ghost predicate Extends(a: State, b: State) {
    && (forall s :: s in a.registry ==> s in b.registry && b.registry[s].fetch == a.registry[s].fetch)
    && (forall s, f :: s in a.registry && f in a.registry[s].stores ==>
          s in b.registry && f in b.registry[s].stores && b.registry[s].stores[f] == a.registry[s].stores[f])
    && a.nextStore <= b.nextStore
  }

  lemma ExtendsTransitive(a: State, b: State, c: State)
    requires Extends(a, b) && Extends(b, c)
    ensures Extends(a, c)
  {
  }

  /** Insert a fresh record for `session` unless it already has one. A session
      value that is not an object makes `WeakMap.set` throw. */
  function Register(session: SessionValue, fetch: Option<FetchId>, st: State): (r: Result<State>)
    ensures r.Ok? <==> session.Ref?
    ensures r.Err? ==> r.error == InvalidWeakMapKey
    ensures r.Ok? ==> r.value.registry.Keys == st.registry.Keys + {session.id}
    ensures r.Ok? ==> forall s :: s in st.registry ==> r.value.registry[s] == st.registry[s]
    ensures r.Ok? && session.id !in st.registry ==> r.value.registry[session.id] == Record(map[], fetch)
    ensures r.Ok? ==> r.value.loadSession == st.loadSession && r.value.nextStore == st.nextStore
    ensures r.Ok? ==> Extends(st, r.value)
    ensures r.Ok? && Valid(st) ==> Valid(r.value)
  {
    match session
    case Ref(id) =>
      if id in st.registry then Ok(st)
      else Ok(st.(registry := st.registry[id := Record(map[], fetch)]))
    case _ => Err(InvalidWeakMapKey)
  }

  /** `fns.map((fn) => fn())`: the callbacks run left to right, each on the
      state its predecessor left; the first exception stops the run. */
  function CallAll(fns: seq<Callback>, st: State): (r: (Result<seq<Obj>>, State))
    ensures r.0.Ok? ==> |r.0.value| == |fns|
    ensures |fns| == 0 ==> r == (Ok([]), st)
    ensures |fns| > 0 ==> (r.0.Ok? ==> fns[0](st).0.Ok? && r.0.value[0] == fns[0](st).0.value)
    ensures |fns| > 0 && fns[0](st).0.Err? ==> r == (Err(fns[0](st).0.error), fns[0](st).1)
  {
    if |fns| == 0 then (Ok([]), st)
    else
      var (first, st1) := fns[0](st);
      if first.Err? then (Err(first.error), st1)
      else
        var (rest, st2) := CallAll(fns[1..], st1);
        if rest.Err? then (rest, st2) else (Ok([first.value] + rest.value), st2)
  }

  /** The states in which the callbacks are entered, up to and including the
      one that throws. */
  ghost function Entered(fns: seq<Callback>, st: State): (r: seq<State>)
    ensures |r| <= |fns|
    ensures |fns| > 0 ==> |r| > 0 && r[0] == st
  {
    if |fns| == 0 then []
    else
      var (first, st1) := fns[0](st);
      if first.Err? then [st] else [st] + Entered(fns[1..], st1)
  }

  /** The run follows the trace of entered states: it succeeds iff every
      callback returned, each result is its callback's result on the state
      its predecessor left, and otherwise the last callback entered is the
      first that threw, and its error and state end the run. */
  lemma {:induction false} CallAllFollowsEntered(fns: seq<Callback>, st: State)
    ensures var r := CallAll(fns, st);
            var e := Entered(fns, st);
            && (r.0.Ok? <==> |e| == |fns| && forall i :: 0 <= i < |fns| ==> fns[i](e[i]).0.Ok?)
            && (r.0.Ok? ==> forall i :: 0 <= i < |fns| ==> r.0.value[i] == fns[i](e[i]).0.value)
            && (r.0.Err? ==>
                  && 0 < |e|
                  && (forall i :: 0 <= i < |e| - 1 ==> fns[i](e[i]).0.Ok?)
                  && fns[|e| - 1](e[|e| - 1]).0.Err?
                  && r == (Err(fns[|e| - 1](e[|e| - 1]).0.error), fns[|e| - 1](e[|e| - 1]).1))
            && (r.0.Ok? && |fns| > 0 ==> r.1 == fns[|fns| - 1](e[|fns| - 1]).1)
    decreases |fns|
  {
    if |fns| > 0 {
      var (first, st1) := fns[0](st);
      if first.Ok? {
        var tail := fns[1..];
        CallAllFollowsEntered(tail, st1);
        var r := CallAll(fns, st);
        var rest := CallAll(tail, st1);
        var e := Entered(fns, st);
        var e1 := Entered(tail, st1);
        assert e == [st] + e1;
        assert forall i :: 1 <= i < |fns| ==> fns[i] == tail[i - 1];
        assert forall i :: 1 <= i < |e| ==> e[i] == e1[i - 1];
        if rest.0.Ok? {
          assert r.0.value == [first.value] + rest.0.value;
        } else {
          assert r == rest;
        }
      }
    }
  }

  /** `k` occurs in no object after index `i`. */
  ghost predicate LastWith(objs: seq<Obj>, k: string, i: nat) {
    forall j :: i < j < |objs| ==> k !in objs[j]
  }

  /** `r` is the left-to-right merge of `objs`: it has every key of every
      object, with the value of the last object that has the key. */
  ghost predicate Merges(objs: seq<Obj>, r: Obj) {
    && (forall k :: k in r <==> exists i :: 0 <= i < |objs| && k in objs[i])
    && (forall i: nat, k :: i < |objs| && k in objs[i] && LastWith(objs, k, i) ==> r[k] == objs[i][k])
  }

  lemma MergesStep(objs: seq<Obj>, prev: Obj)
    requires |objs| > 0 && Merges(objs[..|objs| - 1], prev)
    ensures Merges(objs, prev + objs[|objs| - 1])
  {
    var front := objs[..|objs| - 1];
    var last := objs[|objs| - 1];
    var r := prev + last;
    forall k | k in r ensures exists i :: 0 <= i < |objs| && k in objs[i] {
      if k !in last {
        var i :| 0 <= i < |front| && k in front[i];
        assert objs[i] == front[i];
      }
    }
    forall k | exists i :: 0 <= i < |objs| && k in objs[i] ensures k in r {
      var i :| 0 <= i < |objs| && k in objs[i];
      if i < |front| {
        assert front[i] == objs[i];
      }
    }
    forall i: nat, k | i < |objs| && k in objs[i] && LastWith(objs, k, i) ensures r[k] == objs[i][k] {
      if i < |front| {
        assert objs[i] == front[i];
        assert k !in last;
        assert LastWith(front, k, i);
      }
    }
  }

  /** `Object.assign({}, ...objs)`. */
  function Assign(objs: seq<Obj>): (r: Obj)
    ensures Merges(objs, r)
  {
    if |objs| == 0 then map[]
    else
      var prev := Assign(objs[..|objs| - 1]);
      MergesStep(objs, prev);
      prev + objs[|objs| - 1]
  }

  /** `useLoad(input, ...fns)`: register `input.session` if it has no record,
      publish it in `loadSession` while the callbacks run, merge their results,
      and clear `loadSession` whether they return or throw. */
  function UseLoad(input: LoadInput, fns: seq<Callback>, st: State): (r: (Result<Obj>, State))
    ensures !input.session.Ref? ==> r == (Err(InvalidWeakMapKey), st)
    ensures input.session.Ref? ==> r.1.loadSession == Nullish
    ensures input.session.Ref? && |fns| == 0 ==> r.0 == Ok(map[])
    ensures input.session.Ref? ==>
              var results := CallAll(fns, Register(input.session, input.fetch, st).value.(loadSession := input.session)).0;
              && (r.0.Ok? <==> results.Ok?)
              && (r.0.Ok? ==> Merges(results.value, r.0.value))
              && (r.0.Err? ==> r.0.error == results.error)
    // whatever the callbacks did to the state stays done; only `loadSession` is cleared
    ensures input.session.Ref? ==>
              r.1 == CallAll(fns, Register(input.session, input.fetch, st).value.(loadSession := input.session)).1.(loadSession := Nullish)
  {
    match Register(input.session, input.fetch, st)
    case Err(e) => (Err(e), st)
    case Ok(registered) =>
      var (results, st1) := CallAll(fns, registered.(loadSession := input.session));
      var after := st1.(loadSession := Nullish);
      if results.Err? then (Err(results.error), after) else (Ok(Assign(results.value)), after)
  }

  /** The callback never replaces a record, a fetch or an instance. */
  ghost predicate Monotone(fn: Callback) {
    forall s :: Extends(s, fn(s).1)
  }

  /** The callback leaves `loadSession` as it found it (a nested `useLoad`
      does not: it clears it). */
  ghost predicate KeepsLoadSession(fn: Callback) {
    forall s :: fn(s).1.loadSession == s.loadSession
  }

  lemma {:induction false} CallAllExtends(fns: seq<Callback>, st: State)
    requires forall i :: 0 <= i < |fns| ==> Monotone(fns[i])
    ensures Extends(st, CallAll(fns, st).1)
    decreases |fns|
  {
    if |fns| > 0 {
      var (first, st1) := fns[0](st);
      assert Monotone(fns[0]);
      assert Extends(st, st1);
      if first.Ok? {
        CallAllExtends(fns[1..], st1);
        ExtendsTransitive(st, st1, CallAll(fns[1..], st1).1);
      }
    }
  }

  /** Every callback is entered in a state that extends the starting one and,
      when the callbacks keep `loadSession`, has the starting `loadSession`. */
  lemma {:induction false} EnteredStates(fns: seq<Callback>, st: State)
    requires forall i :: 0 <= i < |fns| ==> Monotone(fns[i]) && KeepsLoadSession(fns[i])
    ensures forall i :: 0 <= i < |Entered(fns, st)| ==>
              Extends(st, Entered(fns, st)[i]) && Entered(fns, st)[i].loadSession == st.loadSession
    decreases |fns|
  {
    if |fns| > 0 {
      var (first, st1) := fns[0](st);
      assert Monotone(fns[0]) && KeepsLoadSession(fns[0]);
      assert Extends(st, st1) && st1.loadSession == st.loadSession;
      if first.Ok? {
        var rest := Entered(fns[1..], st1);
        EnteredStates(fns[1..], st1);
        assert Entered(fns, st) == [st] + rest;
        forall i | 0 <= i < |Entered(fns, st)|
          ensures Extends(st, Entered(fns, st)[i]) && Entered(fns, st)[i].loadSession == st.loadSession
        {
          if i > 0 {
            assert Entered(fns, st)[i] == rest[i - 1];
            ExtendsTransitive(st, st1, rest[i - 1]);
          }
        }
      }
    }
  }

  /** While the callbacks of `useLoad` run, `loadSession` is `input.session`
      and its record is in the registry, provided the callbacks follow the
      registry discipline and do not touch `loadSession` themselves. */
  lemma CallbacksRunInsideSession(input: LoadInput, fns: seq<Callback>, st: State)
    requires input.session.Ref?
    requires forall i :: 0 <= i < |fns| ==> Monotone(fns[i]) && KeepsLoadSession(fns[i])
    ensures var entered := Entered(fns, Register(input.session, input.fetch, st).value.(loadSession := input.session));
            forall i :: 0 <= i < |entered| ==>
              entered[i].loadSession == input.session && input.session.id in entered[i].registry
  {
    var start := Register(input.session, input.fetch, st).value.(loadSession := input.session);
    EnteredStates(fns, start);
  }

  /** After `useLoad` the registry holds a record for `input.session`; an
      existing record keeps its fetch (first write wins), a new one has the
      input's fetch; no record, fetch or instance of any session is lost. */
  lemma UseLoadRegisters(input: LoadInput, fns: seq<Callback>, st: State)
    requires input.session.Ref?
    requires forall i :: 0 <= i < |fns| ==> Monotone(fns[i])
    ensures var after := UseLoad(input, fns, st).1;
            && Extends(st, after)
            && input.session.id in after.registry
            && after.registry[input.session.id].fetch ==
               (if input.session.id in st.registry then st.registry[input.session.id].fetch else input.fetch)
  {
    var registered := Register(input.session, input.fetch, st).value;
    var start := registered.(loadSession := input.session);
    CallAllExtends(fns, start);
    ExtendsTransitive(st, start, CallAll(fns, start).1);
  }

  /** Two `useLoad` calls for one fresh session with different fetches: the
      first fetch is the one the record keeps. */
  lemma FirstFetchWins(session: SessionId, a: FetchId, b: FetchId, fns1: seq<Callback>, fns2: seq<Callback>, st: State)
    requires session !in st.registry
    requires forall i :: 0 <= i < |fns1| ==> Monotone(fns1[i])
    requires forall i :: 0 <= i < |fns2| ==> Monotone(fns2[i])
    ensures var st1 := UseLoad(LoadInput(Ref(session), Some(a)), fns1, st).1;
            var st2 := UseLoad(LoadInput(Ref(session), Some(b)), fns2, st1).1;
            session in st2.registry && st2.registry[session].fetch == Some(a)
  {
    var st1 := UseLoad(LoadInput(Ref(session), Some(a)), fns1, st).1;
    UseLoadRegisters(LoadInput(Ref(session), Some(a)), fns1, st);
    UseLoadRegisters(LoadInput(Ref(session), Some(b)), fns2, st1);
  }
}

=== FILE: usesession.dfy ===
/** `useSession`: which session the current call belongs to, and its record.
    Also the resolver interface through which stores find their session. */
module Resolution {
  import opened Base
  import opened Registry

  /** A resolved session: its identity and exactly the registered record. */
  datatype Resolved = Resolved(session: SessionId, data: Record)

  const SessionUnavailableMessage := "Call useLoad before calls to useSession"

  /** The message a `SessionUnavailable` error carries. */
  function Message(e: Error): (m: Option<string>)
    ensures e == SessionUnavailable ==> m == Some("Call useLoad before calls to useSession")
    ensures e.OverloadMismatch? ==> m == Some(e.message)
  {
    match e
    case SessionUnavailable => Some(SessionUnavailableMessage)
    case OverloadMismatch(message) => Some(message)
    case _ => None
  }

  /** `useSession()` as written: the session is `loadSession`, or the ambient
      session when `loadSession` is null or undefined; it must have a record.
      The state is only read. */
  function UseSession(st: State, ambient: SessionValue): (r: Result<Resolved>)
    ensures !st.loadSession.Nullish? ==>
              (r.Ok? <==> st.loadSession.Ref? && st.loadSession.id in st.registry)
    ensures st.loadSession.Nullish? ==>
              (r.Ok? <==> ambient.Ref? && ambient.id in st.registry)
    ensures r.Ok? ==> Ref(r.value.session) == (if st.loadSession.Nullish? then ambient else st.loadSession)
    ensures r.Ok? ==> r.value.session in st.registry && r.value.data == st.registry[r.value.session]
    ensures r.Err? ==> r.error == SessionUnavailable
    ensures r.Err? ==> Message(r.error) == Some("Call useLoad before calls to useSession")
  {
    var session := if st.loadSession.Nullish? then ambient else st.loadSession;
    if session.Ref? && session.id in st.registry then Ok(Resolved(session.id, st.registry[session.id]))
    else Err(SessionUnavailable)
  }

  /** Within the callbacks of `useLoad(input, ...)`, `useSession` yields
      `input.session` and its record, whatever the ambient session is. */
  lemma UseSessionInsideUseLoad(input: LoadInput, fns: seq<Callback>, st: State, ambient: SessionValue)
    requires input.session.Ref?
    requires forall i :: 0 <= i < |fns| ==> Monotone(fns[i]) && KeepsLoadSession(fns[i])
    ensures var entered := Entered(fns, Register(input.session, input.fetch, st).value.(loadSession := input.session));
            forall i :: 0 <= i < |entered| ==>
              && input.session.id in entered[i].registry
              && UseSession(entered[i], ambient) == Ok(Resolved(input.session.id, entered[i].registry[input.session.id]))
  {
    CallbacksRunInsideSession(input, fns, st);
  }

  /** Resolution of the session a store operation belongs to, given the
      optional input the store was invoked with. A resolver may register
      sessions, so it returns the state it leaves. */
  type Resolver = (Option<LoadInput>, State) -> (Result<SessionId>, State)

  /** The resolver keeps the registry discipline and the store-identity
      invariant. */
  ghost predicate Sound(resolve: Resolver) {
    forall i, st :: Extends(st, resolve(i, st).1) && (Valid(st) ==> Valid(resolve(i, st).1))
  }

  /** `useSession` as written, used as a resolver: the input is ignored and
      the state is not changed. */
  function ReadOnly(ambient: SessionValue): (resolve: Resolver)
    ensures forall i, st :: resolve(i, st).1 == st
    ensures forall i, st :: resolve(i, st).0.Ok? <==> UseSession(st, ambient).Ok?
    ensures forall i, st :: resolve(i, st).0.Ok? ==> resolve(i, st).0.value == UseSession(st, ambient).value.session
    ensures forall i, st :: resolve(i, st).0.Err? ==> resolve(i, st).0.error == SessionUnavailable
  {
    (i: Option<LoadInput>, st: State) =>
      (match UseSession(st, ambient)
       case Ok(x) => Ok(x.session)
       case Err(e) => Err(e), st)
  }

  /** An input-aware resolver built from the registry write of `useLoad`: a
      session named by the input is registered (insert-if-absent, with the
      input's fetch) and used; otherwise `useSession` decides. */
  function Registering(ambient: SessionValue): (resolve: Resolver)
    ensures forall inp: LoadInput, st :: inp.session.Ref? ==>
              resolve(Some(inp), st) == (Ok(inp.session.id), Register(inp.session, inp.fetch, st).value)
    ensures forall i: Option<LoadInput>, st :: (i.None? || i.value.session.Nullish?) ==>
              resolve(i, st) == ReadOnly(ambient)(i, st)
  {
    (i: Option<LoadInput>, st: State) =>
      if i.Some? && !i.value.session.Nullish? then
        match Register(i.value.session, i.value.fetch, st)
        case Ok(st1) => (Ok(i.value.session.id), st1)
        case Err(e) => (Err(e), st)
      else ReadOnly(ambient)(i, st)
  }

  /** A load input whose session is not an object is rejected as `WeakMap.set`
      rejects it, and nothing is registered. */
  lemma RegisteringRejectsPrimitive(ambient: SessionValue, inp: LoadInput, st: State)
    requires inp.session.Primitive?
    ensures Registering(ambient)(Some(inp), st) == (Err(InvalidWeakMapKey), st)
  {
    assert Register(inp.session, inp.fetch, st) == Err(InvalidWeakMapKey);
  }

  lemma ReadOnlySound(ambient: SessionValue)
    ensures Sound(ReadOnly(ambient))
  {
  }

  lemma RegisteringSound(ambient: SessionValue)
    ensures Sound(Registering(ambient))
  {
    forall i, st ensures Extends(st, Registering(ambient)(i, st).1) && (Valid(st) ==> Valid(Registering(ambient)(i, st).1)) {
      if i.Some? && !i.value.session.Nullish? {
        var r := Register(i.value.session, i.value.fetch, st);
      }
    }
  }
}
